=== FILE: README.md ===
# Authentication core of go-backend-boilerplate, in Dafny

This project models the request-authentication core of a small Go HTTP service:

- the user middleware (`SetUser`, `GetUser`, `Authenticate`, `RequireUser`);
- the registration handler (`validateRegisterRequest`, `HandleRegisterUser`);
- the login handler (`HandleCreateToken`);
- the route table (`SetupRoutes`).

Each handler and middleware is a pure function. Its collaborators are function-typed parameters:

- the user store's `GetUserByUsername`, `GetUserToken` and `CreateUser`;
- the password hash's `Set` and `Matches`;
- the token store's `CreateNewToken`.

A handler's result records two things: the collaborator calls it made, in order, and the one JSON response it wrote. That lets the contracts say "nothing was called", "a token was minted only after the password matched", and so on.

The Go library behaviour the core relies on is written out in module `GoStrings`:

- `strings.Split` on one separator character;
- `strings.TrimSpace`, using the white space of `unicode.IsSpace`;
- `len` of a string, which counts UTF-8 bytes.

The e-mail regular expression `^[a-zA-Z0-9._%+-]+@[a-zA-Z0-9.-]+\.[a-zA-Z]{2,}$` has three forms, proved to accept the same strings:

- a character-by-character recogniser (`Email.MatchEmail`);
- a structural characterisation (`Email.EmailShape`);
- the language of the pattern itself (`Email.InPatternLanguage`).

Modules, one per source component:

- `Wrappers`: `Option`.
- `GoStrings`: the standard-library string functions.
- `Store`: the storage layer's records and collaborator outcomes. Its source is not part of this model; only the shapes the core uses are.
- `Http`: responses, headers, decode results.
- `Middleware`.
- `Email`.
- `UserHandler`.
- `TokenHandler`.
- `Routes`.

Behaviours of the code worth noting:

- On login, an unknown username and a failed user lookup both get 500 "internal server error" (internal/API/token_handler.go:44-46), while a wrong password gets 401 "invalid credentials" (internal/API/token_handler.go:57-58).
- A login body that does not decode is answered under the JSON key `errors` (internal/API/token_handler.go:38); every other error response uses the key `error`.
- A failed password comparison answers with the message "internal sever error", spelled as written.
- The username limit of 50 counts UTF-8 bytes, although the message says "characters".
- An Authorization value `Bearer `, as the middleware receives it (empty token), passes the header check, and the empty token is looked up.
- An Authorization value `\tBearer abc` (a tab before the scheme), as the middleware receives it, passes the header check, because the scheme part is trimmed.

## Model

| member | source | states |
|---|---|---|
| `GoStrings.Split` | internal/middleware/middleware.go:47 | strings.Split on one character: there is one part more than there are separators, no part contains the separator, and joining the parts with the separator gives back the input |
| `GoStrings.SplitJoin` | internal/middleware/middleware.go:47 | splitting the join of non-empty, separator-free parts gives back those parts |
| `GoStrings.SplitInTwo` | internal/middleware/middleware.go:47-48 | a split gives exactly [a, b] iff the input is a, one separator, b, and neither a nor b contains the separator |
| `GoStrings.TrimSpace` | internal/middleware/middleware.go:48 | the result is the input with its leading and trailing Unicode white space removed, and does not begin or end with white space |
| `GoStrings.TrimSpaceUnique` | internal/middleware/middleware.go:48 | any string that is m between runs of white space, where m neither begins nor ends with white space, trims to m |
| `GoStrings.TrimSpaceIs` | internal/middleware/middleware.go:48 | a string trims to such an m iff it is m padded on both sides with white space |
| `GoStrings.ByteLen` | internal/API/user_handler.go:38 | len of a string counts UTF-8 bytes: between one and four per character |
| `GoStrings.ByteLenAscii` | internal/API/user_handler.go:38 | the byte length equals the character count iff every character is ASCII |
| `Middleware.GetUser` | internal/middleware/middleware.go:25-31 | no ensures; reading the slot requires that a user was attached, in place of the panic, and `SetUser` states that it returns what was attached |
| `Middleware.AuthorizationValue` | internal/middleware/middleware.go:39 | no ensures; `Header.Get` gives the first value or "", and `AuthenticateAnonymous` states that both absent and empty values make the caller anonymous |
| `Middleware.SetUser` | internal/middleware/middleware.go:20-23 | reading the context back after attaching a user gives that user; the headers are unchanged |
| `Middleware.SetUserShadows` | internal/middleware/middleware.go:20-31 | a later SetUser hides an earlier one |
| `Middleware.ParseBearer` | internal/middleware/middleware.go:47-52 | no ensures; `ParseBearerShape` characterises the values it accepts and the token it yields |
| `Middleware.ParseBearerShape` | internal/middleware/middleware.go:47-53 | the header yields token t iff it is a scheme part, one space and t, with no other space, where the scheme part trims to "Bearer" |
| `Middleware.BearerSchemeShape` | internal/middleware/middleware.go:48 | a scheme part passes iff it is exactly "Bearer" padded with white space other than ' ' |
| `Middleware.ParseBearerOneSpace` | internal/middleware/middleware.go:47-53 | a value with exactly one space yields its second part iff its first part trims to "Bearer" |
| `Middleware.ParseBearerBareScheme` | internal/middleware/middleware.go:47-53 | when the scheme part has no surrounding white space, a value with one space yields its token iff the scheme part is exactly "Bearer" |
| `Middleware.ParseBearerAccepts` | internal/middleware/middleware.go:47-53 | "Bearer abc" yields "abc"; "Bearer " yields the empty token |
| `Middleware.ParseBearerTrimsTab` | internal/middleware/middleware.go:48 | "\tBearer abc" is accepted with token "abc" |
| `Middleware.ParseBearerCaseSensitive` | internal/middleware/middleware.go:48 | "bearer abc" is malformed: the scheme comparison is case-sensitive |
| `Middleware.ParseBearerPartCount` | internal/middleware/middleware.go:47-48 | every value that does not hold exactly one space is malformed, since it does not split into two parts |
| `Middleware.ParseBearerPartCountExamples` | internal/middleware/middleware.go:47-48 | "abc" and "Bearer" (no space) and "Bearer a b" and "Bearer  abc" (two spaces) are malformed |
| `Middleware.Authenticate` | internal/middleware/middleware.go:33-69 | "Vary: Authorization" is always added; whenever next runs, an identity is attached; every stop is a 401 under key "error"; only the authentication scope is ever looked up |
| `Middleware.AuthenticateAnonymous` | internal/middleware/middleware.go:38-45 | with an absent or empty Authorization header, the anonymous user is attached, no lookup is made, and next runs |
| `Middleware.AuthenticateMalformed` | internal/middleware/middleware.go:47-51 | a malformed header gets 401 "invalid authorization header" and no lookup |
| `Middleware.AuthenticateLookup` | internal/middleware/middleware.go:53-65 | the token after the space is looked up under the authentication scope; a store error gives 401 "invalid token", a missing record 401 "token expired or invalid", a found user reaches next with that user attached |
| `Middleware.AuthenticateNextIff` | internal/middleware/middleware.go:33-69 | next runs iff the header is empty or is a Bearer token the store resolves; the attached caller is anonymous iff the header is empty |
| `Middleware.RequireUser` | internal/middleware/middleware.go:71-82 | an anonymous caller gets 401 "you must be logged in to access this route"; any other caller reaches next with the request unchanged |
| `Middleware.AuthenticatedGate` | internal/middleware/middleware.go:33-82 | Authenticate then RequireUser lets a request through iff it carries a Bearer token the store resolves, and then passes on that token's user |
| `Email.MatchEmail` | internal/API/user_handler.go:44-45 | no ensures; `MatchEmailIsShape` and `MatchEmailIsPattern` prove it accepts exactly the pattern's language |
| `Email.ShapeIsPattern` | internal/API/user_handler.go:44-45 | the structural characterisation of an address accepts exactly the language of the pattern |
| `Email.ScanClassifies` | internal/API/user_handler.go:44-45 | the state the recogniser reaches on a string is the state the structure of the string determines |
| `Email.MatchEmailIsShape` | internal/API/user_handler.go:44-45 | the recogniser accepts exactly the strings with one '@', a non-empty local part, and a domain whose last '.' follows at least one character and precedes at least two letters |
| `Email.MatchEmailIsPattern` | internal/API/user_handler.go:44-47 | the recogniser accepts exactly the language of the anchored pattern |
| `Email.RejectsNoAt` | internal/API/user_handler.go:44-47 | "not-an-email" does not match |
| `Email.RejectsShortTld` | internal/API/user_handler.go:44-47 | "a@b.c" does not match: the top-level domain needs two letters |
| `Email.RejectsEmptyHost` | internal/API/user_handler.go:44-47 | "a@.com" does not match: something must precede the last '.' |
| `Email.AcceptsDottedLocal` | internal/API/user_handler.go:44-47 | "a.b@x-y.io" matches |
| `UserHandler.ErrorText` | internal/API/user_handler.go:35-49 | no ensures; the five messages, which `ErrorTextInjective` proves pairwise distinct |
| `UserHandler.ValidateRegisterRequest` | internal/API/user_handler.go:34-52 | the error returned is a check the request violates, and no earlier check in source order is violated; no error is returned iff no check is violated |
| `UserHandler.ErrorTextInjective` | internal/API/user_handler.go:34-52 | the validation messages are pairwise distinct |
| `UserHandler.ValidateFirstFailure` | internal/API/user_handler.go:34-52 | the error returned is the first check, in source order, that the request violates, with the e-mail check taken as the language of the pattern |
| `UserHandler.ValidateAccepts` | internal/API/user_handler.go:34-52 | a request passes iff it violates no check |
| `UserHandler.BioNotValidated` | internal/API/user_handler.go:34-52 | the bio never affects validation, and may be empty |
| `UserHandler.UsernameLimit` | internal/API/user_handler.go:38-40 | a 50-byte username passes the length check and a 51-byte one fails it |
| `UserHandler.UsernameLimitInBytes` | internal/API/user_handler.go:38-40 | 50 ASCII letters pass, while 26 copies of a two-byte letter fail |
| `UserHandler.StoreErrorResponse` | internal/API/user_handler.go:89-102 | a CreateUser error gives 409 "username or email already exists" iff it is a pq error with code 23505; every other error gives 500 "internal server error" |
| `UserHandler.UserObject` | internal/API/user_handler.go:105-112 | the created-user object has exactly the keys id, username, email, bio, createdAt and updatedAt, holding the user's texts, id and times, and no password |
| `UserHandler.HandleRegisterUser` | internal/API/user_handler.go:54-115 | every response is 201, 400, 409 or 500; the response is 400 iff nothing was called; otherwise the hasher is called first, once, on the request's password, and CreateUser at most once after it; CreateUser receives the request's username, e-mail and bio with the hasher's hash of the password |
| `UserHandler.RegisterMalformed` | internal/API/user_handler.go:57-62 | an undecodable body gets 400 "invalid request payload" and no call |
| `UserHandler.RegisterInvalid` | internal/API/user_handler.go:65-70 | a request failing validation gets 400 with that error's text and no call |
| `UserHandler.RegisterNotAnEmail` | internal/API/user_handler.go:44-70 | a valid username with e-mail "not-an-email" gets 400 "invalid email format" and no call |
| `UserHandler.RegisterHashFailed` | internal/API/user_handler.go:80-86 | a password the hasher fails on gets 500 "failed to hash password"; the hasher was called and CreateUser was not |
| `UserHandler.RegisterConflict` | internal/API/user_handler.go:89-102 | a unique violation from the store gives 409; any other store error gives 500 |
| `UserHandler.RegisterSuccess` | internal/API/user_handler.go:104-114 | 201 iff the request validates, hashes and inserts; the "user" object then has exactly the keys id, username, email, bio, createdAt and updatedAt, holding the request's texts and the store's id and times, and no password |
| `TokenHandler.HandleCreateToken` | internal/API/token_handler.go:32-72 | every response is 201, 400, 401 or 500; the calls are a prefix of lookup, compare, mint; any mint is for the looked-up user's id, with a 24-hour lifetime and the authentication scope |
| `TokenHandler.LoginMalformed` | internal/API/token_handler.go:34-40 | an undecodable body gets 400 "invalid request payload" under key "errors", and no call |
| `TokenHandler.LoginUnknownUser` | internal/API/token_handler.go:43-48 | a failed lookup or a missing user gets 500 "internal server error" after the one lookup |
| `TokenHandler.LookupFailuresIndistinguishable` | internal/API/token_handler.go:43-48 | a store error and a missing user give the same response |
| `TokenHandler.LoginCompareFailed` | internal/API/token_handler.go:50-55 | an error from the password comparison gives 500 "internal sever error", after exactly the user lookup and the comparison |
| `TokenHandler.LoginWrongPassword` | internal/API/token_handler.go:57-60 | a wrong password gets 401 "invalid credentials" after exactly the user lookup and the comparison, and no token is minted |
| `TokenHandler.UnknownUserDistinguishable` | internal/API/token_handler.go:43-60 | an unknown username (500) and a wrong password (401) get different statuses |
| `TokenHandler.MintOnlyAfterMatch` | internal/API/token_handler.go:50-67 | a mint call is always the third call, after the lookup of the request's username and a comparison that answered true |
| `TokenHandler.LoginOutcome` | internal/API/token_handler.go:62-69 | after a match, a minted token gives 201 with "auth_token" set to its plaintext, and a mint error gives 500 |
| `TokenHandler.CreatedOnlyWhenMinted` | internal/API/token_handler.go:32-69 | 201 iff the body decodes, the user exists, the password matches and the mint succeeds |
| `Routes.SetupRoutes` | internal/route/routes.go:9-28 | there are seven routes; the seven (verb, pattern) keys are distinct; each pipeline authenticates before it gates; a route runs Authenticate then RequireUser iff its handler is a workout handler, and no middleware otherwise |
| `Routes.RouteKeys` | internal/route/routes.go:12-25 | a key is registered behind Authenticate and RequireUser iff it is GET, PUT or DELETE /workouts/{id} or POST /workouts, and with no middleware iff it is GET /health, POST /users or POST /tokens/authentication |
| `Routes.RouteHandlers` | internal/route/routes.go:15-25 | dispatch on each of the seven keys finds its handler: the three workout-by-id verbs and POST /workouts their workout handlers behind Authenticate and RequireUser, /health HealthCheck, POST /users HandleRegisterUser and POST /tokens/authentication HandleCreateToken, each with no middleware |
| `Routes.FindRoute` | internal/route/routes.go:9-28 | dispatch finds the route registered under the key, or reports that there is none |
| `Routes.GatedAuthenticatesFirst` | internal/route/routes.go:13-18 | in the workout pipeline, Authenticate comes before RequireUser |
| `Routes.FindRegistered` | internal/route/routes.go:9-28 | when keys are distinct, dispatch on a registered key returns the route registered under it |
| `Routes.RunStages` | internal/route/routes.go:12-20 | the stages entered are a prefix of the pipeline; the handler is reached only after all of them, and then with an identity attached; every rejection is a 401 |
| `Routes.Serve` | internal/route/routes.go:9-28 | a request gets an exchange iff its key is registered |
| `Routes.WorkoutRoutesGated` | internal/route/routes.go:12-25 | a handler that is reached ran both middlewares iff it is a workout handler |
| `Routes.RunGated` | internal/route/routes.go:13-18 | the workout pipeline: Authenticate's stop ends the exchange; otherwise RequireUser decides |
| `Routes.OnlyMembersReachWorkouts` | internal/route/routes.go:12-20 | a workout handler is reached only with a Bearer token the store resolved under the authentication scope, and it receives that token's user |
| `Routes.AnonymousStoppedAtGate` | internal/route/routes.go:13-18 | with no Authorization header, a workout route ends in RequireUser's 401 after both stages, and the handler is not reached |
| `Routes.MalformedStoppedFirst` | internal/route/routes.go:13-18 | a malformed header on a workout route is rejected by Authenticate, and RequireUser never runs |
| `Routes.WorkoutRoutesVary` | internal/route/routes.go:13-18 | every exchange on a workout route carries "Vary: Authorization" |
| `Routes.PublicRoutesUntouched` | internal/route/routes.go:22-25 | /health, POST /users and POST /tokens/authentication reach their handler with the request untouched: no header, no lookup, no identity attached |

## Left out

- Password hashing (`Password.Set` and `Password.Matches`, bcrypt): not part of this model. Each is a function parameter, and its outcome, including an error, is an input.
- The user store's `CreateUser` (internal/API/user_handler.go:89): not part of this model. Its outcome is an input, and the model assumes it writes only the ID, CreatedAt and UpdatedAt of the user it is given. The success response reads the username, e-mail and bio back from that same user (internal/API/user_handler.go:106-111), so `UserHandler.RegisterSuccess`'s claim that they are the request's texts rests on this assumption.
- The token store's `CreateNewToken` and the random token it generates: not part of this model. The mint outcome is an input.
- The user store's SQL: not part of this model, and neither is the `lib/pq` error type. A store error is either a pq error carrying its SQLSTATE code, or some other error.
- The value of `tokens.ScopeAuth`: the tokens package is not part of this model. It is taken as "authentication", the path of the login route. The contracts only use the fact that one fixed scope is used for both minting and lookup.
- JSON decoding and encoding (`json.NewDecoder`, `utils.WriteJSON`): a body is modelled as already decoded or malformed. A response is its status, its one envelope key and its payload.
- The Go regexp engine: it is replaced by the recogniser `Email.MatchEmail`, which is proved to accept exactly the pattern's language.
- Logging, including the login handler printing the token plaintext (internal/API/token_handler.go:70): logging has no effect on any response.
- The wall clock: `CreatedAt` and `UpdatedAt` come from the store as inputs. `24*time.Hour` is the integer 86 400 000 000 000, in nanoseconds.
- Request contexts: the identity slot of a request is an optional field. `GetUser` has a precondition in place of its panic. `Routes.Serve` shows the precondition always holds on the routes the table registers.
- The chi router: pattern matching of paths such as `/workouts/{id}` is left out, so a request is identified by its (verb, pattern) key. The 404 and 405 answers for unregistered keys are also left out; `Routes.Serve` answers None.
- Non-UTF-8 bytes in header values and request texts: Go strings are byte strings, and a Dafny string holds Unicode scalar values, so a token carrying bytes that are not valid UTF-8 has no model. The header decision is unaffected: the byte 0x20 and ASCII white space never occur inside a multi-byte UTF-8 sequence, and TrimSpace never treats an invalid byte as white space.
- The HTTP server's own handling of header values: for example, the server may strip surrounding white space before `Header.Get`. The model takes the first Authorization value exactly as the middleware receives it.
- The workout handlers and `HealthCheck`: only whether they are reached, and with what request, is modelled. Their bodies are not part of this model.
- Application wiring (internal/appl/app.go, main.go): these construct the components and start the server; they hold no logic of the core.
- The test file test/password_test.go: it only calls `Password.Set("test123")` on a bare `storee.Password` and prints whether hashing failed; it states no property of the core.
- Concurrency: each request is modelled on its own.

=== FILE: email.dfy ===
/**
 The e-mail check of the registration validator, the pattern
   ^[a-zA-Z0-9._%+-]+@[a-zA-Z0-9.-]+\.[a-zA-Z]{2,}$
 in three forms proved to agree: the language the pattern denotes (a string that
 splits into its four pieces), a characterisation by the single '@' and the last
 '.', and a one-pass recogniser that reads the string character by character.
 */
module Email {
  import opened GoStrings

  predicate IsLetter(c: char) { 'a' <= c <= 'z' || 'A' <= c <= 'Z' }

  predicate IsDigit(c: char) { '0' <= c <= '9' }

  /** [a-zA-Z0-9._%+-], the characters of the part before '@'. */
  predicate IsLocalChar(c: char)
  {
    IsLetter(c) || IsDigit(c) || c == '.' || c == '_' || c == '%' || c == '+' || c == '-'
  }

  /** [a-zA-Z0-9.-], the characters of the part after '@'. */
  predicate IsDomainChar(c: char)
  {
    IsLetter(c) || IsDigit(c) || c == '.' || c == '-'
  }

  predicate AllLocal(s: string) { forall i :: 0 <= i < |s| ==> IsLocalChar(s[i]) }

  predicate AllDomain(s: string) { forall i :: 0 <= i < |s| ==> IsDomainChar(s[i]) }

  predicate AllLetters(s: string) { forall i :: 0 <= i < |s| ==> IsLetter(s[i]) }

  lemma AllLocalSnoc(s: string, c: char)
    ensures AllLocal(s + [c]) <==> AllLocal(s) && IsLocalChar(c)
  {
    assert forall i :: 0 <= i < |s| ==> (s + [c])[i] == s[i];
    assert (s + [c])[|s|] == c;
  }

  lemma AllDomainSnoc(s: string, c: char)
    ensures AllDomain(s + [c]) <==> AllDomain(s) && IsDomainChar(c)
  {
    assert forall i :: 0 <= i < |s| ==> (s + [c])[i] == s[i];
    assert (s + [c])[|s|] == c;
  }

  lemma AllLettersSnoc(s: string, c: char)
    ensures AllLetters(s + [c]) <==> AllLetters(s) && IsLetter(c)
  {
    assert forall i :: 0 <= i < |s| ==> (s + [c])[i] == s[i];
    assert (s + [c])[|s|] == c;
  }

  // ---------------------------------------------------------------------------
  // The language of the pattern

  /**
   s is local + "@" + host + "." + tld with the '@' at position at and that '.' at
   position dot, a non-empty local part, a non-empty host and a tld of two or more
   letters, each over its character class. The pattern is anchored at both ends.
   */
  ghost predicate MatchesAt(s: string, at: int, dot: int)
  {
    && 0 < at && at + 1 < dot && dot + 2 < |s|
    && AllLocal(s[..at]) && s[at] == '@'
    && AllDomain(s[at + 1..dot]) && s[dot] == '.'
    && AllLetters(s[dot + 1..])
  }

  ghost predicate InPatternLanguage(s: string)
  {
    exists at, dot :: MatchesAt(s, at, dot)
  }

  // ---------------------------------------------------------------------------
  // The characterisation

  /**
   The part after the '@': over [a-zA-Z0-9.-], with a last '.' that has at least
   one character before it and two or more ASCII letters after it.
   */
  predicate DomainShape(domain: string)
  {
    var dot := LastIndexOf(domain, '.');
    && AllDomain(domain)
    && dot >= 1 && |domain| - dot - 1 >= 2 && AllLetters(domain[dot + 1..])
  }

  /**
   Exactly one '@'; before it a non-empty local part over [a-zA-Z0-9._%+-]; after it
   a domain of the shape above.
   */
  predicate EmailShape(s: string)
  {
    CountAbsent(s, '@');
    && Count(s, '@') == 1
    && var at := IndexOf(s, '@');
       && at >= 1 && AllLocal(s[..at])
       && DomainShape(s[at + 1..])
  }

  lemma ShapeGivesSplit(s: string)
    requires EmailShape(s)
    ensures InPatternLanguage(s)
  {
    var at := IndexOf(s, '@');
    var domain := s[at + 1..];
    var k := LastIndexOf(domain, '.');
    var dot := at + 1 + k;
    assert s[at + 1..dot] == domain[..k];
    assert s[dot + 1..] == domain[k + 1..];
    assert MatchesAt(s, at, dot);
  }

  /** A character outside a class does not occur in a string over that class. */
  lemma NotInClass(s: string, c: char, p: char -> bool)
    requires forall i :: 0 <= i < |s| ==> p(s[i])
    requires !p(c)
    ensures c !in s
  {
  }

  /** A non-empty host, a '.' and two or more letters make a domain of the shape. */
  lemma DomainOfSplit(host: string, tld: string)
    requires |host| >= 1 && AllDomain(host)
    requires |tld| >= 2 && AllLetters(tld)
    ensures DomainShape(host + "." + tld)
  {
    var d := host + "." + tld;
    assert forall i :: 0 <= i < |host| ==> d[i] == host[i];
    assert forall i :: |host| < i < |d| ==> d[i] == tld[i - |host| - 1];
    assert d[|host| + 1..] == tld;
    NotInClass(tld, '.', IsLetter);
    LastIndex(d, '.', |host|);
  }

  /** With no '@' on either side of one '@', that '@' is the only one. */
  lemma OneAt(local: string, domain: string)
    requires AllLocal(local) && AllDomain(domain)
    ensures Count(local + "@" + domain, '@') == 1
  {
    NotInClass(local, '@', IsLocalChar);
    CountAbsent(local, '@');
    NotInClass(domain, '@', IsDomainChar);
    CountAbsent(domain, '@');
    CountConcat(local + "@", domain, '@');
    CountConcat(local, "@", '@');
  }

  lemma SplitGivesShape(s: string, at: int, dot: int)
    requires MatchesAt(s, at, dot)
    ensures EmailShape(s)
  {
    NotInClass(s[..at], '@', IsLocalChar);
    FirstIndex(s, '@', at);
    var domain := s[at + 1..];
    assert domain == s[at + 1..dot] + "." + s[dot + 1..];
    DomainOfSplit(s[at + 1..dot], s[dot + 1..]);
    assert s == s[..at] + "@" + domain;
    OneAt(s[..at], domain);
  }

  /** The characterisation describes exactly the language of the pattern. */
  lemma ShapeIsPattern(s: string)
    ensures EmailShape(s) <==> InPatternLanguage(s)
  {
    if EmailShape(s) {
      ShapeGivesSplit(s);
    }
    if InPatternLanguage(s) {
      var at, dot :| MatchesAt(s, at, dot);
      SplitGivesShape(s, at, dot);
    }
  }

  // ---------------------------------------------------------------------------
  // The recogniser

  /**
   The states of a left-to-right scan. InHost: inside the domain, with no '.' yet
   that could start the tld (none seen, or the only one is the domain's first
   character, or a non-letter came after the last one). InTld(n): the last '.' can
   start the tld and min(n, 2) letters have followed it.
   */
  datatype ScanState = Start | InLocal | AfterAt | InHost | InTld(letters: nat) | Dead

  function Advance(st: ScanState, c: char): ScanState
  {
    match st
    case Start => if IsLocalChar(c) then InLocal else Dead
    case InLocal => if IsLocalChar(c) then InLocal else if c == '@' then AfterAt else Dead
    case AfterAt => if IsDomainChar(c) then InHost else Dead
    case InHost => if c == '.' then InTld(0) else if IsDomainChar(c) then InHost else Dead
    case InTld(n) =>
      if c == '.' then InTld(0)
      else if IsLetter(c) then InTld(if n < 2 then n + 1 else 2)
      else if IsDomainChar(c) then InHost
      else Dead
    case Dead => Dead
  }

  /** The state after reading s from the start. */
  function Scan(s: string): ScanState
    decreases |s|
  {
    if s == [] then Start else Advance(Scan(s[..|s| - 1]), s[|s| - 1])
  }

  /** The recogniser: does the scan of s end with two or more tld letters read? */
  predicate MatchEmail(s: string)
  {
    Scan(s) == InTld(2)
  }

  /** What each state says about the part of the domain read so far. */
  ghost function HostClass(domain: string): ScanState
  {
    var k := LastIndexOf(domain, '.');
    if k >= 1 && AllLetters(domain[k + 1..]) then
      InTld(if |domain| - k - 1 < 2 then |domain| - k - 1 else 2)
    else InHost
  }

  /** The state after the first '@', from the local part before it and the domain read since. */
  ghost function DomainClass(local: string, domain: string): ScanState
  {
    if |local| >= 1 && AllLocal(local) && AllDomain(domain) then
      (if domain == [] then AfterAt else HostClass(domain))
    else Dead
  }

  /** The state a prefix s should leave the scan in, read off from the characterisation. */
  ghost function Classify(s: string): ScanState
  {
    if s == [] then Start
    else if '@' !in s then (if AllLocal(s) then InLocal else Dead)
    else DomainClass(s[..IndexOf(s, '@')], s[IndexOf(s, '@') + 1..])
  }

  lemma IndexOfExtend(s: string, c: char)
    requires '@' in s
    ensures IndexOf(s + [c], '@') == IndexOf(s, '@')
  {
    var k := IndexOf(s, '@');
    assert (s + [c])[..k] == s[..k];
    FirstIndex(s + [c], '@', k);
  }

  lemma HostClassExtend(domain: string, c: char)
    requires domain != [] && IsDomainChar(c)
    ensures HostClass(domain + [c]) == Advance(HostClass(domain), c)
  {
    var d := domain + [c];
    assert d[..|d| - 1] == domain;
    if c == '.' {
      assert d[|domain| + 1..] == [];
      assert HostClass(d) == InTld(0);
    } else {
      var k := LastIndexOf(domain, '.');
      var tail := domain[k + 1..];
      assert d[k + 1..] == tail + [c];
      AllLettersSnoc(tail, c);
    }
  }

  /** After the '@', one more character moves the state as Advance does. */
  lemma DomainClassStep(local: string, domain: string, c: char)
    ensures DomainClass(local, domain + [c]) == Advance(DomainClass(local, domain), c)
  {
    AllDomainSnoc(domain, c);
    if |local| >= 1 && AllLocal(local) && AllDomain(domain) && IsDomainChar(c) {
      if domain == [] {
        assert domain + [c] == [c];
      } else {
        HostClassExtend(domain, c);
      }
    }
  }

  /** A step from a prefix without '@'. */
  lemma ClassifyStepBeforeAt(s: string, c: char)
    requires '@' !in s
    ensures Classify(s + [c]) == Advance(Classify(s), c)
  {
    var t := s + [c];
    AllLocalSnoc(s, c);
    if c == '@' {
      FirstIndex(t, '@', |s|);
      assert t[|s| + 1..] == [];
    } else {
      assert '@' !in t;
    }
  }

  /** A step from a prefix holding an '@': only the domain after the first '@' grows. */
  lemma ClassifyStepAfterAt(s: string, c: char)
    requires '@' in s
    ensures Classify(s + [c]) == Advance(Classify(s), c)
  {
    var t := s + [c];
    var at := IndexOf(s, '@');
    IndexOfExtend(s, c);
    assert t[..at] == s[..at];
    assert t[at + 1..] == s[at + 1..] + [c];
    DomainClassStep(s[..at], s[at + 1..], c);
  }

  /** Reading one more character moves the expected state exactly as Advance does. */
  lemma ClassifyStep(s: string, c: char)
    ensures Classify(s + [c]) == Advance(Classify(s), c)
  {
    if '@' in s {
      ClassifyStepAfterAt(s, c);
    } else {
      ClassifyStepBeforeAt(s, c);
    }
  }

  /** The scan of every prefix ends in the state the characterisation predicts. */
  lemma {:induction false} ScanClassifies(s: string)
    ensures Scan(s) == Classify(s)
    decreases |s|
  {
    if s != [] {
      var p := s[..|s| - 1];
      ScanClassifies(p);
      ClassifyStep(p, s[|s| - 1]);
      assert p + [s[|s| - 1]] == s;
    }
  }

  /** A string that is a local part, the first '@' and a domain has exactly one '@'. */
  lemma OneAtAround(s: string)
    requires '@' in s
    requires AllLocal(s[..IndexOf(s, '@')]) && AllDomain(s[IndexOf(s, '@') + 1..])
    ensures Count(s, '@') == 1
  {
    var at := IndexOf(s, '@');
    assert s == s[..at] + "@" + s[at + 1..];
    OneAt(s[..at], s[at + 1..]);
  }

  /** The recogniser accepts exactly the strings of the characterisation. */
  lemma MatchEmailIsShape(s: string)
    ensures MatchEmail(s) <==> EmailShape(s)
  {
    ScanClassifies(s);
    if '@' in s {
      var at := IndexOf(s, '@');
      if at >= 1 && AllLocal(s[..at]) && AllDomain(s[at + 1..]) {
        OneAtAround(s);
      }
    } else {
      CountAbsent(s, '@');
    }
  }

  /** The recogniser accepts exactly the language of the pattern. */
  lemma MatchEmailIsPattern(s: string)
    ensures MatchEmail(s) <==> InPatternLanguage(s)
  {
    MatchEmailIsShape(s);
    ShapeIsPattern(s);
  }

  /** "not-an-email" has no '@'. */
  lemma RejectsNoAt()
    ensures !MatchEmail("not-an-email")
  {
    var s := "not-an-email";
    assert '@' !in s;
    CountAbsent(s, '@');
    MatchEmailIsShape(s);
  }

  /** "a@b.c" has a one-letter tld. */
  lemma RejectsShortTld()
    ensures !MatchEmail("a@b.c")
  {
    var s := "a@b.c";
    MatchEmailIsShape(s);
    FirstIndex(s, '@', 1);
    assert s[2..] == "b.c";
    LastIndex("b.c", '.', 1);
  }

  /** "a@.com" has nothing before its last '.'. */
  lemma RejectsEmptyHost()
    ensures !MatchEmail("a@.com")
  {
    var s := "a@.com";
    MatchEmailIsShape(s);
    FirstIndex(s, '@', 1);
    assert s[2..] == ".com";
    LastIndex(".com", '.', 0);
  }

  /** "a.b@x-y.io" is accepted. */
  lemma AcceptsDottedLocal()
    ensures MatchEmail("a.b@x-y.io")
  {
    var s := "a.b@x-y.io";
    assert MatchesAt(s, 3, 7);
    MatchEmailIsPattern(s);
  }
}

=== FILE: go_strings.dfy ===
/**
 The Go standard-library string operations the core relies on, on strings seen as
 sequences of Unicode code points: strings.Split with a one-character separator,
 strings.TrimSpace (white space as unicode.IsSpace defines it), the first and last
 position of a character, and len(), which in Go counts UTF-8 bytes, not characters.
 */
module GoStrings {

  /** Number of occurrences of c in s. */
  function Count(s: string, c: char): nat
    decreases |s|
  {
    if s == [] then 0 else (if s[0] == c then 1 else 0) + Count(s[1..], c)
  }

  lemma {:induction false} CountConcat(a: string, b: string, c: char)
    ensures Count(a + b, c) == Count(a, c) + Count(b, c)
    decreases |a|
  {
    if a == [] {
      assert a + b == b;
    } else {
      assert (a + b)[1..] == a[1..] + b;
      CountConcat(a[1..], b, c);
    }
  }

  lemma {:induction false} CountAbsent(s: string, c: char)
    ensures Count(s, c) == 0 <==> c !in s
    decreases |s|
  {
    if s != [] {
      CountAbsent(s[1..], c);
      assert s == [s[0]] + s[1..];
    }
  }

  /** Position of the first occurrence of c in s, counted in characters. */
  function IndexOf(s: string, c: char): (k: nat)
    requires c in s
    ensures k < |s| && s[k] == c
    ensures c !in s[..k]
    decreases |s|
  {
    if s[0] == c then 0
    else
      var k := 1 + IndexOf(s[1..], c);
      assert s[..k] == [s[0]] + s[1..][..k - 1];
      k
  }

  /** An occurrence with no earlier occurrence is the one IndexOf finds. */
  lemma FirstIndex(s: string, c: char, k: nat)
    requires k < |s| && s[k] == c && c !in s[..k]
    ensures IndexOf(s, c) == k
  {
    var j := IndexOf(s, c);
    assert forall x :: 0 <= x < k ==> s[..k][x] == s[x];
    assert forall x :: 0 <= x < j ==> s[..j][x] == s[x];
  }

  /** Position of the last occurrence of c in s, or -1, counted in characters. */
  function LastIndexOf(s: string, c: char): (k: int)
    ensures -1 <= k < |s|
    ensures 0 <= k ==> s[k] == c
    ensures forall j :: k < j < |s| ==> s[j] != c
    decreases |s|
  {
    if s == [] then -1
    else if s[|s| - 1] == c then |s| - 1
    else LastIndexOf(s[..|s| - 1], c)
  }

  /** An occurrence with no later occurrence is the one LastIndexOf finds. */
  lemma LastIndex(s: string, c: char, k: nat)
    requires k < |s| && s[k] == c && c !in s[k + 1..]
    ensures LastIndexOf(s, c) == k
  {
    assert forall x :: k < x < |s| ==> s[k + 1..][x - k - 1] == s[x];
  }

  /** strings.Join(parts, string(sep)). */
  function Join(parts: seq<string>, sep: char): string
    requires |parts| >= 1
    decreases |parts|
  {
    if |parts| == 1 then parts[0] else parts[0] + [sep] + Join(parts[1..], sep)
  }

  /**
   strings.Split(s, string(sep)): the pieces of s between the occurrences of sep,
   one more piece than there are separators (so "" splits into [""]), none of them
   holding a separator, and joined back with sep they give s again.
   */
  function Split(s: string, sep: char): (parts: seq<string>)
    ensures |parts| == Count(s, sep) + 1
    ensures forall i :: 0 <= i < |parts| ==> sep !in parts[i]
    ensures Join(parts, sep) == s
    decreases |s|
  {
    if sep !in s then
      CountAbsent(s, sep);
      [s]
    else
      var k := IndexOf(s, sep);
      var rest := Split(s[k + 1..], sep);
      assert s == s[..k] + [sep] + s[k + 1..];
      CountConcat(s[..k] + [sep], s[k + 1..], sep);
      CountConcat(s[..k], [sep], sep);
      CountAbsent(s[..k], sep);
      assert ([s[..k]] + rest)[1..] == rest;
      [s[..k]] + rest
  }

  /** Split undoes Join whenever no piece holds the separator. */
  lemma {:induction false} SplitJoin(parts: seq<string>, sep: char)
    requires |parts| >= 1
    requires forall i :: 0 <= i < |parts| ==> sep !in parts[i]
    ensures Split(Join(parts, sep), sep) == parts
    decreases |parts|
  {
    if |parts| > 1 {
      var s := Join(parts, sep);
      var p := parts[0];
      var rest := Join(parts[1..], sep);
      assert s == p + [sep] + rest;
      assert s[..|p|] == p;
      FirstIndex(s, sep, |p|);
      assert s[|p| + 1..] == rest;
      SplitJoin(parts[1..], sep);
      assert parts == [p] + parts[1..];
    }
  }

  /** Splitting gives exactly the two pieces a and b iff s is a, one separator, b. */
  lemma SplitInTwo(s: string, sep: char, a: string, b: string)
    ensures Split(s, sep) == [a, b] <==> s == a + [sep] + b && sep !in a && sep !in b
  {
    if Split(s, sep) == [a, b] {
      assert [a, b][1..] == [b];
    }
    if s == a + [sep] + b && sep !in a && sep !in b {
      assert [a, b][1..] == [b];
      assert Join([a, b], sep) == s;
      SplitJoin([a, b], sep);
    }
  }

  /** unicode.IsSpace: the Latin-1 spaces plus the Unicode White_Space characters. */
  predicate IsSpace(c: char)
  {
    || c == '\t' || c == '\n' || c == '\U{000B}' || c == '\U{000C}' || c == '\r' || c == ' '
    || c == '\U{0085}' || c == '\U{00A0}' || c == '\U{1680}'
    || ('\U{2000}' <= c <= '\U{200A}')
    || c == '\U{2028}' || c == '\U{2029}' || c == '\U{202F}' || c == '\U{205F}' || c == '\U{3000}'
  }

  /** Length of the longest all-space prefix of s. */
  function LeadingSpaces(s: string): (n: nat)
    ensures n <= |s|
    ensures forall i :: 0 <= i < n ==> IsSpace(s[i])
    ensures n < |s| ==> !IsSpace(s[n])
    decreases |s|
  {
    if s == [] || !IsSpace(s[0]) then 0 else 1 + LeadingSpaces(s[1..])
  }

  /** Length of the longest all-space suffix of s. */
  function TrailingSpaces(s: string): (n: nat)
    ensures n <= |s|
    ensures forall i :: |s| - n <= i < |s| ==> IsSpace(s[i])
    ensures n < |s| ==> !IsSpace(s[|s| - 1 - n])
    decreases |s|
  {
    if s == [] || !IsSpace(s[|s| - 1]) then 0 else 1 + TrailingSpaces(s[..|s| - 1])
  }

  /** s is m with the all-space padding s[..i] in front and the all-space padding after it. */
  ghost predicate Padded(s: string, i: nat, m: string)
  {
    && i + |m| <= |s|
    && s[i..i + |m|] == m
    && (forall k :: 0 <= k < i ==> IsSpace(s[k]))
    && (forall k :: i + |m| <= k < |s| ==> IsSpace(s[k]))
  }

  /**
   strings.TrimSpace: s with its leading and trailing white space removed. What is
   cut off is white space, and what remains neither starts nor ends with it.
   */
  function TrimSpace(s: string): (r: string)
    ensures Padded(s, LeadingSpaces(s), r)
    ensures r == [] || (!IsSpace(r[0]) && !IsSpace(r[|r| - 1]))
  {
    var i := LeadingSpaces(s);
    var t := s[i..];
    var j := TrailingSpaces(t);
    var r := t[..|t| - j];
    assert forall k :: i + |r| <= k < |s| ==> s[k] == t[k - i];
    assert s[i..i + |r|] == r;
    assert r != [] ==> r[0] == s[i] && r[|r| - 1] == t[|t| - 1 - j];
    r
  }

  /** TrimSpace recovers m from any all-space padding of it, when m itself is not padded. */
  lemma TrimSpaceUnique(s: string, i: nat, m: string)
    requires Padded(s, i, m)
    requires m != [] && !IsSpace(m[0]) && !IsSpace(m[|m| - 1])
    ensures TrimSpace(s) == m
  {
    var n := LeadingSpaces(s);
    assert s[i] == m[0];
    assert n == i;
    var t := s[i..];
    var j := TrailingSpaces(t);
    assert t[|m| - 1] == m[|m| - 1];
    assert forall k :: |m| <= k < |t| ==> t[k] == s[i + k];
    assert j == |t| - |m|;
    assert t[..|t| - j] == m;
  }

  /** For a non-empty m that is not itself padded, TrimSpace(s) == m iff s is a padding of m. */
  lemma TrimSpaceIs(s: string, m: string)
    requires m != [] && !IsSpace(m[0]) && !IsSpace(m[|m| - 1])
    ensures TrimSpace(s) == m <==> exists i :: Padded(s, i, m)
  {
    if exists i :: Padded(s, i, m) {
      var i :| Padded(s, i, m);
      TrimSpaceUnique(s, i, m);
    }
  }

  /** Bytes in the UTF-8 encoding of c (utf8.RuneLen). */
  function RuneLen(c: char): nat
  {
    if c as int < 0x80 then 1
    else if c as int < 0x800 then 2
    else if c as int < 0x10000 then 3
    else 4
  }

  predicate IsAscii(c: char)
  {
    c as int < 0x80
  }

  /** len(s) for a Go string: the length of its UTF-8 encoding, 1 to 4 bytes per character. */
  function ByteLen(s: string): (n: nat)
    ensures |s| <= n <= 4 * |s|
    decreases |s|
  {
    if s == [] then 0 else RuneLen(s[0]) + ByteLen(s[1..])
  }

  /** The byte length equals the character count exactly when every character is ASCII. */
  lemma {:induction false} ByteLenAscii(s: string)
    ensures ByteLen(s) == |s| <==> forall i :: 0 <= i < |s| ==> IsAscii(s[i])
    decreases |s|
  {
    if s != [] {
      ByteLenAscii(s[1..]);
      assert forall i :: 1 <= i < |s| ==> s[i] == s[1..][i - 1];
    }
  }
}

=== FILE: http.dfy ===
/**
 HTTP responses as utils.WriteJSON produces them: a status code and a one-entry
 envelope, a key naming the payload ("error", "errors", "auth_token", "user").
 Response headers are the ordered list of (name, value) pairs added to them.
 */
module Http {

  const StatusCreated: int := 201
  const StatusBadRequest: int := 400
  const StatusUnauthorized: int := 401
  const StatusConflict: int := 409
  const StatusInternalServerError: int := 500

  /** A JSON field of the created-user object. */
  datatype Field = IntField(n: int) | TextField(s: string) | TimeField(t: int)

  /** The value under the envelope's key: a string, or an object (a Go map). */
  datatype Payload = Text(text: string) | Object(fields: map<string, Field>)

  datatype Response = Response(status: int, key: string, payload: Payload)

  /** utils.WriteJSON(w, status, utils.Envelope{"error": message}). */
  function ErrorResponse(status: int, message: string): Response
  {
    Response(status, "error", Text(message))
  }

  /** The header values of a ResponseWriter, in the order Header().Add put them there. */
  type Header = seq<(string, string)>

  /** Outcome of json.NewDecoder(r.Body).Decode into a request struct. */
  datatype Decoded<T> = Malformed | Decoded(value: T)
}

=== FILE: middleware.dfy ===
/**
 The request-authorisation middleware: the identity slot of a request
 (SetUser/GetUser), Authenticate, which sorts every request into anonymous,
 rejected or authenticated from its Authorization header, and RequireUser, the
 gate that turns an anonymous caller away.
 */
module Middleware {
  import opened Wrappers
  import opened GoStrings
  import opened Store
  import opened Http

  /**
   What the middleware reads of an *http.Request: the values of its Authorization
   header, in order, and the user slot of its context (None until SetUser runs).
   */
  datatype Request = Request(authorization: seq<string>, identity: Option<Caller>)

  /** r.Header.Get("Authorization"): the first value, "" when the header is absent. */
  function AuthorizationValue(req: Request): string
  {
    if req.authorization == [] then "" else req.authorization[0]
  }

  /** Attaches user to the request; reading the slot back gives user, and nothing else changes. */
  function SetUser(req: Request, user: Caller): (r: Request)
    ensures r.identity.Some? && GetUser(r) == user
    ensures r.authorization == req.authorization
  {
    req.(identity := Some(user))
  }

  /** The attached user. The source panics when nothing is attached: a caller's obligation. */
  function GetUser(req: Request): Caller
    requires req.identity.Some?
  {
    req.identity.value
  }

  /** A later SetUser hides an earlier one, as a nested context value does. */
  lemma SetUserShadows(req: Request, u: Caller, v: Caller)
    ensures GetUser(SetUser(SetUser(req, u), v)) == v
    ensures SetUser(SetUser(req, u), v) == SetUser(req, v)
  {
  }

  const BearerScheme: string := "Bearer"

  /**
   The token of a non-empty Authorization value, or None when the value is
   malformed: splitting on " " must give exactly two parts, and the first part with
   its white space trimmed must be "Bearer", compared case-sensitively.
   */
  function ParseBearer(value: string): Option<string>
  {
    var parts := Split(value, ' ');
    if |parts| != 2 || TrimSpace(parts[0]) != BearerScheme then None else Some(parts[1])
  }

  /**
   The shape ParseBearer accepts: a scheme part and a token with one space between
   them and no other space, where the scheme part trims to "Bearer".
   */
  lemma ParseBearerShape(value: string, token: string)
    ensures ParseBearer(value) == Some(token) <==>
      exists scheme :: value == scheme + " " + token && ' ' !in scheme && ' ' !in token && TrimSpace(scheme) == BearerScheme
  {
    if ParseBearer(value) == Some(token) {
      var parts := Split(value, ' ');
      SplitInTwo(value, ' ', parts[0], parts[1]);
      assert parts == [parts[0], parts[1]];
    }
    if exists scheme :: value == scheme + " " + token && ' ' !in scheme && ' ' !in token && TrimSpace(scheme) == BearerScheme {
      var scheme :| value == scheme + " " + token && ' ' !in scheme && ' ' !in token && TrimSpace(scheme) == BearerScheme;
      SplitInTwo(value, ' ', scheme, token);
    }
  }

  /** A scheme part trims to "Bearer" iff it is "Bearer" between white space (other than ' '). */
  lemma BearerSchemeShape(scheme: string)
    ensures TrimSpace(scheme) == BearerScheme <==> exists i :: Padded(scheme, i, BearerScheme)
  {
    TrimSpaceIs(scheme, BearerScheme);
  }

  /** A value with exactly one space is accepted iff its scheme part trims to "Bearer". */
  lemma ParseBearerOneSpace(scheme: string, token: string)
    requires ' ' !in scheme && ' ' !in token
    ensures ParseBearer(scheme + " " + token) ==
      if TrimSpace(scheme) == BearerScheme then Some(token) else None
  {
    SplitInTwo(scheme + " " + token, ' ', scheme, token);
  }

  /** A scheme part that neither starts nor ends with white space passes iff it is "Bearer" itself. */
  lemma ParseBearerBareScheme(scheme: string, token: string)
    requires ' ' !in scheme && ' ' !in token
    requires scheme != [] && !IsSpace(scheme[0]) && !IsSpace(scheme[|scheme| - 1])
    ensures ParseBearer(scheme + " " + token) == if scheme == BearerScheme then Some(token) else None
  {
    TrimSpaceUnique(scheme, 0, scheme);
    ParseBearerOneSpace(scheme, token);
  }

  /** "Bearer abc" is accepted with token "abc", and "Bearer " with the empty token. */
  lemma ParseBearerAccepts()
    ensures ParseBearer("Bearer abc") == Some("abc")
    ensures ParseBearer("Bearer ") == Some("")
  {
    ParseBearerBareScheme(BearerScheme, "abc");
    ParseBearerBareScheme(BearerScheme, "");
    assert BearerScheme + " " + "abc" == "Bearer abc";
    assert BearerScheme + " " + "" == "Bearer ";
  }

  /** White space other than ' ' around the scheme is trimmed away: "\tBearer abc" is accepted. */
  lemma ParseBearerTrimsTab()
    ensures ParseBearer("\tBearer abc") == Some("abc")
  {
    var scheme := "\tBearer";
    assert scheme[1..7] == BearerScheme;
    TrimSpaceUnique(scheme, 1, BearerScheme);
    ParseBearerOneSpace(scheme, "abc");
    assert scheme + " " + "abc" == "\tBearer abc";
  }

  /** The scheme is compared case-sensitively: "bearer abc" is malformed. */
  lemma ParseBearerCaseSensitive()
    ensures ParseBearer("bearer abc") == None
  {
    ParseBearerBareScheme("bearer", "abc");
    assert "bearer" + " " + "abc" == "bearer abc";
  }

  /** A value that does not hold exactly one space does not split into two parts, so it is malformed. */
  lemma ParseBearerPartCount(value: string)
    requires Count(value, ' ') != 1
    ensures ParseBearer(value) == None
  {
  }

  /** Four malformed values: "abc" and "Bearer" have no space, "Bearer a b" and "Bearer  abc" have two. */
  lemma ParseBearerPartCountExamples()
    ensures ParseBearer("abc") == None
    ensures ParseBearer("Bearer") == None
    ensures ParseBearer("Bearer a b") == None
    ensures ParseBearer("Bearer  abc") == None
  {
    CountAbsent("abc", ' ');
    ParseBearerPartCount("abc");
    CountAbsent("Bearer", ' ');
    ParseBearerPartCount("Bearer");
    ParseBearerPartCount("Bearer a b");
    ParseBearerPartCount("Bearer  abc");
  }

  /** What Authenticate did: the writer's headers afterwards, the token lookup it made, and how it ended. */
  datatype AuthRun = AuthRun(header: Header, query: Option<TokenQuery>, step: Step)

  /** A middleware either calls next, with the request it passes on, or writes a response and stops. */
  datatype Step = Next(req: Request) | Stop(resp: Response)

  /** The arguments of UserStore.GetUserToken(scope, plaintext). */
  datatype TokenQuery = TokenQuery(scope: string, plaintext: string)

  const VaryAuthorization: (string, string) := ("Vary", "Authorization")

  /**
   Authenticate, given the headers already on the writer and UserStore.GetUserToken's
   answer to each possible lookup. It always adds "Vary: Authorization"; an empty
   Authorization value makes the caller anonymous; a malformed one, a failed
   lookup and a missing token record are rejected with 401; a resolved token
   attaches its user. Only the scope ScopeAuth is ever looked up.
   */
  function Authenticate(req: Request, header: Header, userTokens: TokenQuery -> UserLookup): (run: AuthRun)
    ensures run.header == header + [VaryAuthorization]
    ensures run.step.Next? ==> run.step.req.identity.Some? && run.step.req.authorization == req.authorization
    ensures run.step.Stop? ==> run.step.resp.status == StatusUnauthorized && run.step.resp.key == "error"
    ensures run.query.Some? ==> run.query.value.scope == ScopeAuth
  {
    var h := header + [VaryAuthorization];
    var value := AuthorizationValue(req);
    if value == "" then
      AuthRun(h, None, Next(SetUser(req, AnonymousUser)))
    else
      match ParseBearer(value)
      case None => AuthRun(h, None, Stop(ErrorResponse(StatusUnauthorized, "invalid authorization header")))
      case Some(token) =>
        var q := TokenQuery(ScopeAuth, token);
        match userTokens(q)
        case LookupFailed => AuthRun(h, Some(q), Stop(ErrorResponse(StatusUnauthorized, "invalid token")))
        case NoSuchUser => AuthRun(h, Some(q), Stop(ErrorResponse(StatusUnauthorized, "token expired or invalid")))
        case FoundUser(u) => AuthRun(h, Some(q), Next(SetUser(req, Member(u))))
  }

  /** No Authorization header, or an empty first value: the anonymous user is attached, no lookup is made, next runs. */
  lemma AuthenticateAnonymous(req: Request, header: Header, userTokens: TokenQuery -> UserLookup)
    requires req.authorization == [] || req.authorization[0] == ""
    ensures Authenticate(req, header, userTokens) ==
      AuthRun(header + [VaryAuthorization], None, Next(SetUser(req, AnonymousUser)))
  {
  }

  /** A non-empty value that is not a Bearer credential: 401 "invalid authorization header", no lookup. */
  lemma AuthenticateMalformed(req: Request, header: Header, userTokens: TokenQuery -> UserLookup)
    requires AuthorizationValue(req) != "" && ParseBearer(AuthorizationValue(req)).None?
    ensures Authenticate(req, header, userTokens) ==
      AuthRun(header + [VaryAuthorization], None, Stop(ErrorResponse(StatusUnauthorized, "invalid authorization header")))
  {
  }

  /**
   A Bearer credential is looked up under ScopeAuth with the token exactly as it
   appears after the space; each lookup outcome decides the result.
   */
  lemma AuthenticateLookup(req: Request, header: Header, userTokens: TokenQuery -> UserLookup, token: string)
    requires AuthorizationValue(req) != "" && ParseBearer(AuthorizationValue(req)) == Some(token)
    ensures var run := Authenticate(req, header, userTokens);
      && run.query == Some(TokenQuery(ScopeAuth, token))
      && (userTokens(TokenQuery(ScopeAuth, token)).LookupFailed? ==>
            run.step == Stop(ErrorResponse(StatusUnauthorized, "invalid token")))
      && (userTokens(TokenQuery(ScopeAuth, token)).NoSuchUser? ==>
            run.step == Stop(ErrorResponse(StatusUnauthorized, "token expired or invalid")))
      && (userTokens(TokenQuery(ScopeAuth, token)).FoundUser? ==>
            run.step == Next(SetUser(req, Member(userTokens(TokenQuery(ScopeAuth, token)).user))))
  {
  }

  /**
   Authenticate calls next exactly when the value is empty or a Bearer token that
   resolves to a user, and the caller it attaches is anonymous exactly when the
   value is empty.
   */
  lemma AuthenticateNextIff(req: Request, header: Header, userTokens: TokenQuery -> UserLookup)
    ensures var run := Authenticate(req, header, userTokens);
      var value := AuthorizationValue(req);
      && (run.step.Next? <==>
            value == "" || (ParseBearer(value).Some? && userTokens(TokenQuery(ScopeAuth, ParseBearer(value).value)).FoundUser?))
      && (run.step.Next? ==> (GetUser(run.step.req).IsAnonymous() <==> value == ""))
  {
    var value := AuthorizationValue(req);
    if value != "" && ParseBearer(value).Some? {
      AuthenticateLookup(req, header, userTokens, ParseBearer(value).value);
    }
  }

  /**
   RequireUser: an anonymous caller gets 401 and next does not run; any other
   caller reaches next with the request unchanged.
   */
  function RequireUser(req: Request): (step: Step)
    requires req.identity.Some?
    ensures step.Next? <==> !GetUser(req).IsAnonymous()
    ensures step.Next? ==> step.req == req
    ensures step.Stop? ==> step.resp == ErrorResponse(StatusUnauthorized, "you must be logged in to access this route")
  {
    if GetUser(req).IsAnonymous() then
      Stop(ErrorResponse(StatusUnauthorized, "you must be logged in to access this route"))
    else
      Next(req)
  }

  /**
   Authenticate followed by RequireUser lets a request through exactly when it
   carries a Bearer token UserStore.GetUserToken resolves, and then the attached caller
   is that token's user.
   */
  lemma AuthenticatedGate(req: Request, header: Header, userTokens: TokenQuery -> UserLookup)
    ensures var run := Authenticate(req, header, userTokens);
      var value := AuthorizationValue(req);
      run.step.Next? ==>
        (RequireUser(run.step.req).Next? <==>
          (value != "" && ParseBearer(value).Some? && userTokens(TokenQuery(ScopeAuth, ParseBearer(value).value)).FoundUser?))
        && (RequireUser(run.step.req).Next? ==>
          GetUser(RequireUser(run.step.req).req) == Member(userTokens(TokenQuery(ScopeAuth, ParseBearer(value).value)).user))
  {
    var value := AuthorizationValue(req);
    if value != "" && ParseBearer(value).Some? {
      AuthenticateLookup(req, header, userTokens, ParseBearer(value).value);
    }
  }
}

=== FILE: routes.dfy ===
/**
 SetupRoutes as a table from (verb, pattern) to the middleware each request
 passes through before its handler, and the run of a request through that
 pipeline. The four workout routes sit in the Authenticate group and are wrapped
 in RequireUser; /health, POST /users and POST /tokens/authentication are not.
 */
module Routes {
  import opened Wrappers
  import opened Store
  import opened Http
  import opened Middleware

  datatype Method = GET | POST | PUT | DELETE

  /** The handlers the router dispatches to. */
  datatype Handler =
    | HealthCheck
    | RegisterUser
    | CreateToken
    | GetWorkoutByID
    | CreateWorkout
    | UpdateWorkoutByID
    | DeleteWorkoutByID
  {
    predicate IsWorkout()
    {
      GetWorkoutByID? || CreateWorkout? || UpdateWorkoutByID? || DeleteWorkoutByID?
    }
  }

  /** A middleware of the pipeline. */
  datatype Stage = AuthenticateStage | RequireUserStage

  /** One registered route: its key, the stages that run first, in order, and its handler. */
  datatype Route = Route(verb: Method, pattern: string, stages: seq<Stage>, handler: Handler)

  /** Every RequireUser stage comes after some Authenticate stage. */
  predicate AuthenticatesFirst(stages: seq<Stage>)
  {
    forall i :: 0 <= i < |stages| && stages[i] == RequireUserStage ==>
      exists j :: 0 <= j < i && stages[j] == AuthenticateStage
  }

  const Gated: seq<Stage> := [AuthenticateStage, RequireUserStage]

  /**
   The router SetupRoutes builds. Its keys are distinct, every pipeline attaches an
   identity before it is read, and a route runs Authenticate then RequireUser
   exactly when its handler is a workout handler, and no middleware otherwise.
   */
  function SetupRoutes(): (routes: seq<Route>)
    ensures |routes| == 7
    ensures forall i, j :: 0 <= i < j < |routes| ==>
      (routes[i].verb, routes[i].pattern) != (routes[j].verb, routes[j].pattern)
    ensures forall i :: 0 <= i < |routes| ==> AuthenticatesFirst(routes[i].stages)
    ensures forall i :: 0 <= i < |routes| ==>
      (routes[i].handler.IsWorkout() ==> routes[i].stages == Gated)
      && (!routes[i].handler.IsWorkout() ==> routes[i].stages == [])
  {
    GatedAuthenticatesFirst();
    [ Route(GET, "/workouts/{id}", Gated, GetWorkoutByID),
      Route(POST, "/workouts", Gated, CreateWorkout),
      Route(PUT, "/workouts/{id}", Gated, UpdateWorkoutByID),
      Route(DELETE, "/workouts/{id}", Gated, DeleteWorkoutByID),
      Route(GET, "/health", [], HealthCheck),
      Route(POST, "/users", [], RegisterUser),
      Route(POST, "/tokens/authentication", [], CreateToken) ]
  }

  /** The keys of the four workout routes, registered inside the Authenticate group. */
  const WorkoutKeys: set<(Method, string)> :=
    {(GET, "/workouts/{id}"), (POST, "/workouts"), (PUT, "/workouts/{id}"), (DELETE, "/workouts/{id}")}

  /** The keys of the three routes registered outside the group. */
  const PublicKeys: set<(Method, string)> :=
    {(GET, "/health"), (POST, "/users"), (POST, "/tokens/authentication")}

  /** Some route of the table is registered under key with these stages. */
  predicate RegisteredWith(key: (Method, string), stages: seq<Stage>)
  {
    exists i :: 0 <= i < |SetupRoutes()| && (SetupRoutes()[i].verb, SetupRoutes()[i].pattern) == key
      && SetupRoutes()[i].stages == stages
  }

  /**
   Which keys are gated: a key is registered behind Authenticate and RequireUser
   iff it is one of the four workout keys, and registered with no middleware iff
   it is /health, POST /users or POST /tokens/authentication.
   */
  lemma RouteKeys(key: (Method, string))
    ensures RegisteredWith(key, Gated) <==> key in WorkoutKeys
    ensures RegisteredWith(key, []) <==> key in PublicKeys
  {
    var routes := SetupRoutes();
    assert Gated != [];
    if key in WorkoutKeys {
      var i := if key == (GET, "/workouts/{id}") then 0 else if key == (POST, "/workouts") then 1
               else if key == (PUT, "/workouts/{id}") then 2 else 3;
      assert (routes[i].verb, routes[i].pattern) == key;
    }
    if key in PublicKeys {
      var i := if key == (GET, "/health") then 4 else if key == (POST, "/users") then 5 else 6;
      assert (routes[i].verb, routes[i].pattern) == key;
    }
  }

  /** The route registered under (verb, pattern), if any. */
  function FindRoute(routes: seq<Route>, verb: Method, pattern: string): (r: Option<Route>)
    ensures r.Some? ==> r.value in routes && r.value.verb == verb && r.value.pattern == pattern
    ensures r.None? ==> forall i :: 0 <= i < |routes| ==> (routes[i].verb, routes[i].pattern) != (verb, pattern)
    decreases |routes|
  {
    if routes == [] then None
    else if routes[0].verb == verb && routes[0].pattern == pattern then Some(routes[0])
    else FindRoute(routes[1..], verb, pattern)
  }

  /** With distinct keys, dispatch on a registered key finds the route registered under it. */
  lemma {:induction false} FindRegistered(routes: seq<Route>, i: nat)
    requires i < |routes|
    requires forall j, k :: 0 <= j < k < |routes| ==>
      (routes[j].verb, routes[j].pattern) != (routes[k].verb, routes[k].pattern)
    ensures FindRoute(routes, routes[i].verb, routes[i].pattern) == Some(routes[i])
    decreases i
  {
    if i > 0 {
      assert (routes[0].verb, routes[0].pattern) != (routes[i].verb, routes[i].pattern);
      assert routes[1..][i - 1] == routes[i];
      FindRegistered(routes[1..], i - 1);
    }
  }

  /** Which handler serves each of the seven keys, and behind which stages. */
  lemma RouteHandlers()
    ensures FindRoute(SetupRoutes(), GET, "/workouts/{id}") == Some(Route(GET, "/workouts/{id}", Gated, GetWorkoutByID))
    ensures FindRoute(SetupRoutes(), POST, "/workouts") == Some(Route(POST, "/workouts", Gated, CreateWorkout))
    ensures FindRoute(SetupRoutes(), PUT, "/workouts/{id}") == Some(Route(PUT, "/workouts/{id}", Gated, UpdateWorkoutByID))
    ensures FindRoute(SetupRoutes(), DELETE, "/workouts/{id}") ==
            Some(Route(DELETE, "/workouts/{id}", Gated, DeleteWorkoutByID))
    ensures FindRoute(SetupRoutes(), GET, "/health") == Some(Route(GET, "/health", [], HealthCheck))
    ensures FindRoute(SetupRoutes(), POST, "/users") == Some(Route(POST, "/users", [], RegisterUser))
    ensures FindRoute(SetupRoutes(), POST, "/tokens/authentication") ==
            Some(Route(POST, "/tokens/authentication", [], CreateToken))
  {
    var routes := SetupRoutes();
    FindRegistered(routes, 0);
    FindRegistered(routes, 1);
    FindRegistered(routes, 2);
    FindRegistered(routes, 3);
    FindRegistered(routes, 4);
    FindRegistered(routes, 5);
    FindRegistered(routes, 6);
  }

  /** How a request's trip through a pipeline ended: at the handler, or with a middleware's response. */
  datatype End = Reached(handler: Handler, req: Request) | Rejected(resp: Response)

  /**
   A request's trip: the response headers set along the way, the token lookups
   made, the stages entered, in order, and how it ended.
   */
  datatype Exchange = Exchange(header: Header, queries: seq<TokenQuery>, ran: seq<Stage>, end: End)

  /**
   Runs the stages in order in front of handler. RequireUser reads the identity
   slot, so either the request already carries one or the first stage is
   Authenticate, which attaches one for every later stage. The stages entered are a prefix of the
   pipeline, the handler is reached only after all of them, and each rejection
   is a 401.
   */
  function RunStages(stages: seq<Stage>, handler: Handler, req: Request, header: Header,
                     userTokens: TokenQuery -> UserLookup): (x: Exchange)
    requires req.identity.Some? || stages == [] || stages[0] == AuthenticateStage
    ensures x.ran <= stages
    ensures x.end.Reached? ==> x.ran == stages && x.end.handler == handler
    ensures x.end.Rejected? ==> x.end.resp.status == StatusUnauthorized
    ensures x.end.Reached? && stages != [] ==> x.end.req.identity.Some?
    decreases |stages|
  {
    if stages == [] then
      Exchange(header, [], [], Reached(handler, req))
    else if stages[0] == AuthenticateStage then
      var run := Authenticate(req, header, userTokens);
      var queries := if run.query.Some? then [run.query.value] else [];
      if run.step.Stop? then
        Exchange(run.header, queries, [AuthenticateStage], Rejected(run.step.resp))
      else
        var rest := RunStages(stages[1..], handler, run.step.req, run.header, userTokens);
        Exchange(rest.header, queries + rest.queries, [AuthenticateStage] + rest.ran, rest.end)
    else
      assert stages[0] == RequireUserStage;
      var gate := RequireUser(req);
      if gate.Stop? then
        Exchange(header, [], [RequireUserStage], Rejected(gate.resp))
      else
        var rest := RunStages(stages[1..], handler, gate.req, header, userTokens);
        Exchange(rest.header, rest.queries, [RequireUserStage] + rest.ran, rest.end)
  }

  /** The workout pipeline runs Authenticate before RequireUser. */
  lemma GatedAuthenticatesFirst()
    ensures AuthenticatesFirst(Gated)
  {
    assert Gated[0] == AuthenticateStage;
  }

  /**
   Serves a request that matches (verb, pattern): None when no route is
   registered there. No precondition: the route table guarantees that GetUser
   inside RequireUser always finds an identity, so its panic cannot be reached.
   */
  function Serve(verb: Method, pattern: string, req: Request, userTokens: TokenQuery -> UserLookup): (x: Option<Exchange>)
    ensures x.Some? <==> exists i :: 0 <= i < |SetupRoutes()| && SetupRoutes()[i].verb == verb && SetupRoutes()[i].pattern == pattern
  {
    var routes := SetupRoutes();
    match FindRoute(routes, verb, pattern)
    case None => None
    case Some(route) =>
      assert route.stages == Gated || route.stages == [];
      Some(RunStages(route.stages, route.handler, req, [], userTokens))
  }

  /** The workout routes and only they run Authenticate and then RequireUser before the handler. */
  lemma WorkoutRoutesGated(verb: Method, pattern: string, req: Request, userTokens: TokenQuery -> UserLookup)
    ensures var x := Serve(verb, pattern, req, userTokens);
      x.Some? && x.value.end.Reached? ==> (x.value.end.handler.IsWorkout() <==> x.value.ran == Gated)
  {
  }

  /** The pipeline of a workout route, Authenticate then RequireUser, unfolded. */
  lemma RunGated(handler: Handler, req: Request, userTokens: TokenQuery -> UserLookup)
    ensures var x := RunStages(Gated, handler, req, [], userTokens);
      var run := Authenticate(req, [], userTokens);
      && x.header == [VaryAuthorization]
      && x.queries == (if run.query.Some? then [run.query.value] else [])
      && (run.step.Stop? ==> x.ran == [AuthenticateStage] && x.end == Rejected(run.step.resp))
      && (run.step.Next? ==>
            && x.ran == Gated
            && var gate := RequireUser(run.step.req);
               && (gate.Stop? ==> x.end == Rejected(gate.resp))
               && (gate.Next? ==> x.end == Reached(handler, gate.req)))
  {
    assert Gated[1..] == [RequireUserStage];
    assert Gated[1..][1..] == [];
    var run := Authenticate(req, [], userTokens);
    if run.step.Next? {
      var rest := RunStages([RequireUserStage], handler, run.step.req, run.header, userTokens);
      var gate := RequireUser(run.step.req);
      if gate.Next? {
        assert rest.end == Reached(handler, gate.req);
      }
    }
  }

  /**
   A workout handler is reached only with a Bearer token UserStore.GetUserToken resolved
   under ScopeAuth, and the request it receives carries that token's user.
   */
  lemma OnlyMembersReachWorkouts(verb: Method, pattern: string, req: Request, userTokens: TokenQuery -> UserLookup)
    ensures var served := Serve(verb, pattern, req, userTokens);
      var value := AuthorizationValue(req);
      served.Some? && served.value.end.Reached? && served.value.end.handler.IsWorkout() ==>
        var x := served.value;
        && value != ""
        && ParseBearer(value).Some?
        && userTokens(TokenQuery(ScopeAuth, ParseBearer(value).value)).FoundUser?
        && x.end.req.identity == Some(Member(userTokens(TokenQuery(ScopeAuth, ParseBearer(value).value)).user))
  {
    var found := FindRoute(SetupRoutes(), verb, pattern);
    if found.Some? && found.value.handler.IsWorkout() {
      RunGated(found.value.handler, req, userTokens);
      AuthenticatedGate(req, [], userTokens);
    }
  }

  /**
   With no Authorization header, a workout route ends with 401 "you must be logged
   in to access this route" from RequireUser after Authenticate let the anonymous
   caller through, and the handler is not invoked.
   */
  lemma AnonymousStoppedAtGate(i: nat, req: Request, userTokens: TokenQuery -> UserLookup)
    requires i < |SetupRoutes()| && SetupRoutes()[i].handler.IsWorkout()
    requires AuthorizationValue(req) == ""
    ensures Serve(SetupRoutes()[i].verb, SetupRoutes()[i].pattern, req, userTokens) ==
      Some(Exchange([VaryAuthorization], [], Gated,
                    Rejected(ErrorResponse(StatusUnauthorized, "you must be logged in to access this route"))))
  {
    FindRegistered(SetupRoutes(), i);
    RunGated(SetupRoutes()[i].handler, req, userTokens);
  }

  /**
   A malformed Authorization value on a workout route is rejected by Authenticate
   with "invalid authorization header"; RequireUser never runs.
   */
  lemma MalformedStoppedFirst(i: nat, req: Request, userTokens: TokenQuery -> UserLookup)
    requires i < |SetupRoutes()| && SetupRoutes()[i].handler.IsWorkout()
    requires AuthorizationValue(req) != "" && ParseBearer(AuthorizationValue(req)).None?
    ensures Serve(SetupRoutes()[i].verb, SetupRoutes()[i].pattern, req, userTokens) ==
      Some(Exchange([VaryAuthorization], [], [AuthenticateStage],
                    Rejected(ErrorResponse(StatusUnauthorized, "invalid authorization header"))))
  {
    FindRegistered(SetupRoutes(), i);
    RunGated(SetupRoutes()[i].handler, req, userTokens);
  }

  /** Every request served on a workout route gets "Vary: Authorization", whatever the outcome. */
  lemma WorkoutRoutesVary(i: nat, req: Request, userTokens: TokenQuery -> UserLookup)
    requires i < |SetupRoutes()| && SetupRoutes()[i].handler.IsWorkout()
    ensures var x := Serve(SetupRoutes()[i].verb, SetupRoutes()[i].pattern, req, userTokens);
      x.Some? && x.value.header == [VaryAuthorization]
  {
    FindRegistered(SetupRoutes(), i);
    RunGated(SetupRoutes()[i].handler, req, userTokens);
  }

  /**
   /health, POST /users and POST /tokens/authentication reach their handler with
   the request untouched: no header added, no token lookup, no identity attached.
   */
  lemma PublicRoutesUntouched(i: nat, req: Request, userTokens: TokenQuery -> UserLookup)
    requires i < |SetupRoutes()| && !SetupRoutes()[i].handler.IsWorkout()
    ensures Serve(SetupRoutes()[i].verb, SetupRoutes()[i].pattern, req, userTokens) ==
      Some(Exchange([], [], [], Reached(SetupRoutes()[i].handler, req)))
  {
    FindRegistered(SetupRoutes(), i);
  }
}

=== FILE: store.dfy ===
/**
 The records of the storee and tokens packages, as far as the handlers and the
 middleware see them, and the outcomes of the collaborator calls whose code is not
 part of this model: the user store, the token store, the password hasher and the
 token minter. Each collaborator is reduced to the shapes of its results.
 */
module Store {

  type Bytes = seq<bv8>

  /** A stored timestamp (time.Time); its representation does not matter here. */
  type Time = int

  /** The bcrypt hash held by a user's Password; its bytes are opaque to the core. */
  datatype PasswordHash = PasswordHash(hash: Bytes)

  /** A row of the users table. */
  datatype User = User(
    id: int,
    username: string,
    email: string,
    passwordHash: PasswordHash,
    bio: string,
    createdAt: Time,
    updatedAt: Time)

  /**
   The identity attached to a request: the AnonymousUser sentinel, or a user the
   UserStore.GetUserToken resolved. IsAnonymous is the only way the core tells them apart.
   */
  datatype Caller = AnonymousUser | Member(user: User)
  {
    predicate IsAnonymous() { AnonymousUser? }
  }

  /** tokens.ScopeAuth, the only token scope in use. */
  const ScopeAuth: string := "authentication"

  /** A minted token, reduced to the plaintext the login handler returns; its hash, owner, expiry and scope are never read. */
  datatype Token = Token(plaintext: string)

  /**
   Result of a user lookup (GetUserByUsername, GetUserToken): the call failed, it
   returned a nil user, or it returned a user.
   */
  datatype UserLookup = LookupFailed | NoSuchUser | FoundUser(user: User)

  /** Result of Password.Matches: the comparison failed, or it answered. */
  datatype MatchOutcome = MatchFailed | Matched(ok: bool)

  /** Result of Password.Set. */
  datatype HashOutcome = HashFailed | Hashed(hash: PasswordHash)

  /** Result of TokenStore.CreateNewToken. */
  datatype MintOutcome = MintFailed | Minted(token: Token)

  /**
   An error from UserStore.CreateUser: a *pq.Error with its SQLSTATE code, or an
   error of any other type.
   */
  datatype StoreError = PqError(code: string) | OtherError

  /** Result of UserStore.CreateUser: the identifier and timestamps the insert assigned. */
  datatype CreateOutcome = Inserted(id: int, createdAt: Time, updatedAt: Time) | InsertFailed(err: StoreError)
}

=== FILE: token_handler.dfy ===
/**
 Login: HandleCreateToken decodes the body, looks the user up by name, compares
 the password and mints a token, answering the first failure with one status and
 one message. A token is minted only after the password matched.
 */
module TokenHandler {
  import opened Store
  import opened Http

  datatype CreateTokenRequest = CreateTokenRequest(username: string, password: string)

  /** time.Hour, a time.Duration in nanoseconds. */
  const Hour: int := 3_600_000_000_000

  /** The lifetime of a login token, 24*time.Hour. */
  const TokenTTL: int := 24 * Hour

  /** A collaborator call HandleCreateToken makes. */
  datatype LoginCall =
    | GetUserByUsername(username: string)
    | MatchPassword(hash: PasswordHash, plaintext: string)
    | CreateNewToken(userID: int, ttl: int, scope: string)

  /** What HandleCreateToken did: the calls it made, in order, and the response it wrote. */
  datatype LoginRun = LoginRun(calls: seq<LoginCall>, response: Response)

  /** The arguments and answer of each collaborator. */
  type UserStore = string -> UserLookup
  type PasswordCheck = (PasswordHash, string) -> MatchOutcome
  type TokenStore = (int, int, string) -> MintOutcome

  /**
   HandleCreateToken given the decoded body, the user store, the password check
   and the token store. Every response is 201, 400, 401 or 500; the calls are a
   prefix of lookup, compare, mint, and any mint call is for the looked-up user
   with the 24-hour lifetime and ScopeAuth.
   */
  function HandleCreateToken(body: Decoded<CreateTokenRequest>, users: UserStore,
                             matches: PasswordCheck, tokens: TokenStore): (run: LoginRun)
    ensures run.response.status in {StatusCreated, StatusBadRequest, StatusUnauthorized, StatusInternalServerError}
    ensures |run.calls| <= 3
    ensures forall i :: 0 <= i < |run.calls| ==>
      (run.calls[i].GetUserByUsername? <==> i == 0) && (run.calls[i].MatchPassword? <==> i == 1)
    ensures forall i :: 0 <= i < |run.calls| && run.calls[i].CreateNewToken? ==>
      && body.Decoded?
      && users(body.value.username).FoundUser?
      && run.calls[i] == CreateNewToken(users(body.value.username).user.id, TokenTTL, ScopeAuth)
  {
    match body
    case Malformed => LoginRun([], Response(StatusBadRequest, "errors", Text("invalid request payload")))
    case Decoded(req) =>
      var lookup := [GetUserByUsername(req.username)];
      match users(req.username)
      case LookupFailed => LoginRun(lookup, ErrorResponse(StatusInternalServerError, "internal server error"))
      case NoSuchUser => LoginRun(lookup, ErrorResponse(StatusInternalServerError, "internal server error"))
      case FoundUser(user) =>
        var compared := lookup + [MatchPassword(user.passwordHash, req.password)];
        match matches(user.passwordHash, req.password)
        case MatchFailed => LoginRun(compared, ErrorResponse(StatusInternalServerError, "internal sever error"))
        case Matched(ok) =>
          if !ok then LoginRun(compared, ErrorResponse(StatusUnauthorized, "invalid credentials"))
          else
            var minted := compared + [CreateNewToken(user.id, TokenTTL, ScopeAuth)];
            match tokens(user.id, TokenTTL, ScopeAuth)
            case MintFailed => LoginRun(minted, ErrorResponse(StatusInternalServerError, "internal server error"))
            case Minted(token) => LoginRun(minted, Response(StatusCreated, "auth_token", Text(token.plaintext)))
  }

  /** A body that does not decode: 400 under the key "errors", and the store is never queried. */
  lemma LoginMalformed(users: UserStore, matches: PasswordCheck, tokens: TokenStore)
    ensures HandleCreateToken(Malformed, users, matches, tokens) ==
      LoginRun([], Response(StatusBadRequest, "errors", Text("invalid request payload")))
  {
  }

  /** A failed lookup and a missing user give the same response, 500 "internal server error". */
  lemma LoginUnknownUser(req: CreateTokenRequest, users: UserStore, matches: PasswordCheck, tokens: TokenStore)
    requires !users(req.username).FoundUser?
    ensures HandleCreateToken(Decoded(req), users, matches, tokens) ==
      LoginRun([GetUserByUsername(req.username)], ErrorResponse(StatusInternalServerError, "internal server error"))
  {
  }

  /** The two failing lookups cannot be told apart by the caller. */
  lemma LookupFailuresIndistinguishable(req: CreateTokenRequest, users: UserStore, users': UserStore,
                                        matches: PasswordCheck, tokens: TokenStore)
    requires users(req.username) == LookupFailed && users'(req.username) == NoSuchUser
    ensures HandleCreateToken(Decoded(req), users, matches, tokens).response ==
            HandleCreateToken(Decoded(req), users', matches, tokens).response
  {
  }

  /** A failed password comparison: 500 with the message spelled "internal sever error", after the lookup and the comparison. */
  lemma LoginCompareFailed(req: CreateTokenRequest, users: UserStore, matches: PasswordCheck, tokens: TokenStore)
    requires users(req.username).FoundUser?
    requires matches(users(req.username).user.passwordHash, req.password) == MatchFailed
    ensures var run := HandleCreateToken(Decoded(req), users, matches, tokens);
      && run.response == ErrorResponse(StatusInternalServerError, "internal sever error")
      && run.calls == [GetUserByUsername(req.username), MatchPassword(users(req.username).user.passwordHash, req.password)]
  {
  }

  /** A wrong password: 401 "invalid credentials" after the lookup and the comparison, and no token is minted. */
  lemma LoginWrongPassword(req: CreateTokenRequest, users: UserStore, matches: PasswordCheck, tokens: TokenStore)
    requires users(req.username).FoundUser?
    requires matches(users(req.username).user.passwordHash, req.password) == Matched(false)
    ensures var run := HandleCreateToken(Decoded(req), users, matches, tokens);
      && run.response == ErrorResponse(StatusUnauthorized, "invalid credentials")
      && run.calls == [GetUserByUsername(req.username), MatchPassword(users(req.username).user.passwordHash, req.password)]
      && forall i :: 0 <= i < |run.calls| ==> !run.calls[i].CreateNewToken?
  {
  }

  /**
   As written, an unknown username (500) and a wrong password for a known one
   (401) give different responses, so the two cases can be told apart.
   */
  lemma UnknownUserDistinguishable(req: CreateTokenRequest, users: UserStore, users': UserStore,
                                   matches: PasswordCheck, tokens: TokenStore)
    requires users(req.username) == NoSuchUser && users'(req.username).FoundUser?
    requires matches(users'(req.username).user.passwordHash, req.password) == Matched(false)
    ensures HandleCreateToken(Decoded(req), users, matches, tokens).response.status == StatusInternalServerError
    ensures HandleCreateToken(Decoded(req), users', matches, tokens).response.status == StatusUnauthorized
  {
  }

  /**
   A token is minted only after a positive match: the mint call is the third
   call, after the lookup of the request's username and the comparison of that
   user's hash with the request's password, which answered true.
   */
  lemma {:induction false} MintOnlyAfterMatch(body: Decoded<CreateTokenRequest>, users: UserStore,
                                              matches: PasswordCheck, tokens: TokenStore, i: nat)
    requires var run := HandleCreateToken(body, users, matches, tokens);
      i < |run.calls| && run.calls[i].CreateNewToken?
    ensures var run := HandleCreateToken(body, users, matches, tokens);
      && i == 2
      && body.Decoded?
      && users(body.value.username).FoundUser?
      && var user := users(body.value.username).user;
         && run.calls == [GetUserByUsername(body.value.username),
                          MatchPassword(user.passwordHash, body.value.password),
                          CreateNewToken(user.id, TokenTTL, ScopeAuth)]
         && matches(user.passwordHash, body.value.password) == Matched(true)
  {
  }

  /**
   The response is 201 exactly when the user is found, the password matches and
   the mint succeeds, and then "auth_token" carries the minted plaintext; a
   failed mint gives 500 "internal server error".
   */
  lemma LoginOutcome(req: CreateTokenRequest, users: UserStore, matches: PasswordCheck, tokens: TokenStore)
    requires users(req.username).FoundUser?
    requires matches(users(req.username).user.passwordHash, req.password) == Matched(true)
    ensures var run := HandleCreateToken(Decoded(req), users, matches, tokens);
      var mint := tokens(users(req.username).user.id, TokenTTL, ScopeAuth);
      && (mint.Minted? ==> run.response == Response(StatusCreated, "auth_token", Text(mint.token.plaintext)))
      && (mint.MintFailed? ==> run.response == ErrorResponse(StatusInternalServerError, "internal server error"))
  {
  }

  /** Only the minting path answers 201. */
  lemma CreatedOnlyWhenMinted(body: Decoded<CreateTokenRequest>, users: UserStore, matches: PasswordCheck, tokens: TokenStore)
    ensures var run := HandleCreateToken(body, users, matches, tokens);
      run.response.status == StatusCreated <==>
        && body.Decoded?
        && users(body.value.username).FoundUser?
        && matches(users(body.value.username).user.passwordHash, body.value.password) == Matched(true)
        && tokens(users(body.value.username).user.id, TokenTTL, ScopeAuth).Minted?
  {
  }
}

=== FILE: user_handler.dfy ===
/**
 User registration: validateRegisterRequest, whose checks run in a fixed order and
 whose first failing check names the error, and HandleRegisterUser, which decodes,
 validates, hashes the password, inserts the user and maps each outcome to one
 response.
 */
module UserHandler {
  import opened Wrappers
  import opened GoStrings
  import opened Store
  import opened Http
  import opened Email

  datatype RegisterUserRequest = RegisterUserRequest(username: string, email: string, password: string, bio: string)

  /** The errors validateRegisterRequest returns, in the order its checks run. */
  datatype ValidationError = UsernameRequired | UsernameTooLong | EmailRequired | EmailInvalid | PasswordRequired

  /** err.Error() of each validation error. */
  function ErrorText(e: ValidationError): string
  {
    match e
    case UsernameRequired => "username is required"
    case UsernameTooLong => "username cannot be greater than 50 characters"
    case EmailRequired => "email is required"
    case EmailInvalid => "invalid email format"
    case PasswordRequired => "password is required"
  }

  /** Distinct errors have distinct texts, so the message identifies the failing check. */
  lemma ErrorTextInjective(e1: ValidationError, e2: ValidationError)
    ensures ErrorText(e1) == ErrorText(e2) ==> e1 == e2
  {
  }

  /** The username limit, compared with len(), which counts UTF-8 bytes. */
  const MaxUsernameBytes: nat := 50

  /**
   validateRegisterRequest: None when the request violates no check, else the
   first check, in source order, that it violates.
   */
  function ValidateRegisterRequest(req: RegisterUserRequest): (r: Option<ValidationError>)
    ensures r.Some? ==> Violates(req, r.value)
    ensures r.Some? ==> forall e :: CheckOrder(e) < CheckOrder(r.value) ==> !Violates(req, e)
    ensures r.None? ==> forall e :: !Violates(req, e)
  {
    MatchEmailIsPattern(req.email);
    if req.username == "" then Some(UsernameRequired)
    else if ByteLen(req.username) > MaxUsernameBytes then Some(UsernameTooLong)
    else if req.email == "" then Some(EmailRequired)
    else if !MatchEmail(req.email) then Some(EmailInvalid)
    else if req.password == "" then Some(PasswordRequired)
    else None
  }

  /** Position of each check in the sequence. */
  function CheckOrder(e: ValidationError): nat
  {
    match e
    case UsernameRequired => 0
    case UsernameTooLong => 1
    case EmailRequired => 2
    case EmailInvalid => 3
    case PasswordRequired => 4
  }

  /** Each check on its own, with the e-mail check as the language of the pattern. */
  ghost predicate Violates(req: RegisterUserRequest, e: ValidationError)
  {
    match e
    case UsernameRequired => req.username == ""
    case UsernameTooLong => ByteLen(req.username) > MaxUsernameBytes
    case EmailRequired => req.email == ""
    case EmailInvalid => !InPatternLanguage(req.email)
    case PasswordRequired => req.password == ""
  }

  /** The error returned is the first check in the order that the request violates. */
  lemma ValidateFirstFailure(req: RegisterUserRequest, e: ValidationError)
    ensures ValidateRegisterRequest(req) == Some(e) <==>
      Violates(req, e) && forall e' :: CheckOrder(e') < CheckOrder(e) ==> !Violates(req, e')
  {
    MatchEmailIsPattern(req.email);
    assert Violates(req, UsernameRequired) <==> req.username == "";
    assert Violates(req, EmailRequired) <==> req.email == "";
    assert Violates(req, EmailInvalid) <==> !MatchEmail(req.email);
    assert Violates(req, PasswordRequired) <==> req.password == "";
  }

  /** A request passes validation iff it violates no check. */
  lemma ValidateAccepts(req: RegisterUserRequest)
    ensures ValidateRegisterRequest(req) == None <==> forall e :: !Violates(req, e)
  {
    MatchEmailIsPattern(req.email);
    if ValidateRegisterRequest(req) != None {
      var e := ValidateRegisterRequest(req).value;
      ValidateFirstFailure(req, e);
    }
  }

  /** The bio is never looked at: any bio, the empty one included, leaves the verdict unchanged. */
  lemma BioNotValidated(req: RegisterUserRequest, bio: string)
    ensures ValidateRegisterRequest(req.(bio := bio)) == ValidateRegisterRequest(req)
  {
  }

  /** A username of exactly 50 bytes passes the length check; one of 51 bytes fails it. */
  lemma UsernameLimit(req: RegisterUserRequest)
    requires req.username != ""
    ensures ByteLen(req.username) == 50 ==> ValidateRegisterRequest(req) != Some(UsernameTooLong)
    ensures ByteLen(req.username) == 51 ==> ValidateRegisterRequest(req) == Some(UsernameTooLong)
  {
  }

  /** The byte length of n copies of one character. */
  lemma {:induction false} ByteLenRepeat(c: char, n: nat)
    ensures ByteLen(seq(n, _ => c)) == n * RuneLen(c)
    decreases n
  {
    if n > 0 {
      assert seq(n, _ => c)[1..] == seq(n - 1, _ => c);
      ByteLenRepeat(c, n - 1);
    }
  }

  /**
   The limit is on bytes although the message speaks of characters: 50 ASCII
   letters pass, 26 copies of 'é' (two bytes each) fail.
   */
  lemma UsernameLimitInBytes(req: RegisterUserRequest)
    ensures req.username == seq(50, _ => 'a') ==> ValidateRegisterRequest(req) != Some(UsernameTooLong)
    ensures req.username == seq(26, _ => '\U{00E9}') ==> ValidateRegisterRequest(req) == Some(UsernameTooLong)
  {
    ByteLenRepeat('a', 50);
    ByteLenRepeat('\U{00E9}', 26);
  }

  /** The user struct handed to CreateUser. */
  datatype NewUser = NewUser(username: string, email: string, passwordHash: PasswordHash, bio: string)

  /** A collaborator call HandleRegisterUser makes. */
  datatype RegisterCall = SetPassword(plaintext: string) | CreateUser(user: NewUser)

  /** What HandleRegisterUser did: the calls it made, in order, and the response it wrote. */
  datatype RegisterRun = RegisterRun(calls: seq<RegisterCall>, response: Response)

  /** SQLSTATE unique_violation. */
  const UniqueViolation: string := "23505"

  /** A CreateUser error: 409 for a *pq.Error with code 23505, 500 for every other error. */
  function StoreErrorResponse(err: StoreError): (resp: Response)
    ensures resp.status == StatusConflict <==> err == PqError(UniqueViolation)
    ensures resp.status == StatusConflict ==> resp == ErrorResponse(StatusConflict, "username or email already exists")
    ensures resp.status != StatusConflict ==> resp == ErrorResponse(StatusInternalServerError, "internal server error")
  {
    match err
    case PqError(code) =>
      if code == UniqueViolation then ErrorResponse(StatusConflict, "username or email already exists")
      else ErrorResponse(StatusInternalServerError, "internal server error")
    case OtherError => ErrorResponse(StatusInternalServerError, "internal server error")
  }

  /** The object under "user" in the 201 response. */
  function UserObject(user: NewUser, id: int, createdAt: Time, updatedAt: Time): (fields: map<string, Field>)
    ensures fields.Keys == {"id", "username", "email", "bio", "createdAt", "updatedAt"}
    ensures "password" !in fields
    ensures fields["username"] == TextField(user.username) && fields["email"] == TextField(user.email)
    ensures fields["bio"] == TextField(user.bio) && fields["id"] == IntField(id)
    ensures fields["createdAt"] == TimeField(createdAt) && fields["updatedAt"] == TimeField(updatedAt)
  {
    map[
      "id" := IntField(id),
      "username" := TextField(user.username),
      "email" := TextField(user.email),
      "bio" := TextField(user.bio),
      "createdAt" := TimeField(createdAt),
      "updatedAt" := TimeField(updatedAt)]
  }

  /**
   HandleRegisterUser given the decoded body, the password hasher and the user
   store. Only a failed decode or validation answers 400, and then nothing is
   called; otherwise the hasher is called first, on the request's password, and
   CreateUser at most once after it; CreateUser receives the request's fields with the hasher's hash of
   the request's password in place of the password.
   */
  function HandleRegisterUser(body: Decoded<RegisterUserRequest>, hasher: string -> HashOutcome,
                              store: NewUser -> CreateOutcome): (run: RegisterRun)
    ensures run.response.status in {StatusCreated, StatusBadRequest, StatusConflict, StatusInternalServerError}
    ensures run.response.status == StatusBadRequest <==> run.calls == []
    ensures |run.calls| <= 2
    ensures forall i :: 0 <= i < |run.calls| ==> (run.calls[i].SetPassword? <==> i == 0)
    ensures |run.calls| > 0 ==> body.Decoded? && run.calls[0] == SetPassword(body.value.password)
    ensures forall i :: 0 <= i < |run.calls| && run.calls[i].CreateUser? ==>
      && body.Decoded?
      && hasher(body.value.password).Hashed?
      && run.calls[i].user == NewUser(body.value.username, body.value.email,
                                      hasher(body.value.password).hash, body.value.bio)
  {
    match body
    case Malformed => RegisterRun([], ErrorResponse(StatusBadRequest, "invalid request payload"))
    case Decoded(req) =>
      match ValidateRegisterRequest(req)
      case Some(e) => RegisterRun([], ErrorResponse(StatusBadRequest, ErrorText(e)))
      case None =>
        match hasher(req.password)
        case HashFailed =>
          RegisterRun([SetPassword(req.password)], ErrorResponse(StatusInternalServerError, "failed to hash password"))
        case Hashed(h) =>
          var user := NewUser(req.username, req.email, h, req.bio);
          var calls := [SetPassword(req.password), CreateUser(user)];
          match store(user)
          case InsertFailed(err) => RegisterRun(calls, StoreErrorResponse(err))
          case Inserted(id, createdAt, updatedAt) =>
            RegisterRun(calls, Response(StatusCreated, "user", Object(UserObject(user, id, createdAt, updatedAt))))
  }

  /** A body that does not decode: 400 "invalid request payload", and neither hasher nor store is called. */
  lemma RegisterMalformed(hasher: string -> HashOutcome, store: NewUser -> CreateOutcome)
    ensures HandleRegisterUser(Malformed, hasher, store) ==
      RegisterRun([], ErrorResponse(StatusBadRequest, "invalid request payload"))
  {
  }

  /** A request that fails validation: 400 with the error's own text, and nothing is called. */
  lemma RegisterInvalid(req: RegisterUserRequest, hasher: string -> HashOutcome, store: NewUser -> CreateOutcome)
    requires ValidateRegisterRequest(req).Some?
    ensures HandleRegisterUser(Decoded(req), hasher, store) ==
      RegisterRun([], ErrorResponse(StatusBadRequest, ErrorText(ValidateRegisterRequest(req).value)))
  {
  }

  /** "not-an-email" is refused with 400 "invalid email format" before the store is touched. */
  lemma RegisterNotAnEmail(req: RegisterUserRequest, hasher: string -> HashOutcome, store: NewUser -> CreateOutcome)
    requires req.username != "" && ByteLen(req.username) <= MaxUsernameBytes && req.email == "not-an-email"
    ensures HandleRegisterUser(Decoded(req), hasher, store) ==
      RegisterRun([], ErrorResponse(StatusBadRequest, "invalid email format"))
  {
    RejectsNoAt();
  }

  /**
   A password the hasher fails on: 500 "failed to hash password"; the hasher was
   called and CreateUser was not.
   */
  lemma RegisterHashFailed(req: RegisterUserRequest, hasher: string -> HashOutcome, store: NewUser -> CreateOutcome)
    requires ValidateRegisterRequest(req).None? && hasher(req.password).HashFailed?
    ensures HandleRegisterUser(Decoded(req), hasher, store) ==
      RegisterRun([SetPassword(req.password)], ErrorResponse(StatusInternalServerError, "failed to hash password"))
  {
  }

  /**
   A store that reports a unique violation, as it does for a second registration of
   the same username or e-mail, yields 409; any other store error yields 500.
   */
  lemma RegisterConflict(req: RegisterUserRequest, hasher: string -> HashOutcome, store: NewUser -> CreateOutcome)
    requires ValidateRegisterRequest(req).None? && hasher(req.password).Hashed?
    requires store(NewUser(req.username, req.email, hasher(req.password).hash, req.bio)).InsertFailed?
    ensures var run := HandleRegisterUser(Decoded(req), hasher, store);
      var err := store(NewUser(req.username, req.email, hasher(req.password).hash, req.bio)).err;
      && (err == PqError(UniqueViolation) ==>
            run.response == ErrorResponse(StatusConflict, "username or email already exists"))
      && (err != PqError(UniqueViolation) ==>
            run.response == ErrorResponse(StatusInternalServerError, "internal server error"))
  {
  }

  /**
   The response is 201 exactly when the request validates, the password hashes and
   the insert succeeds; its "user" object then holds exactly id, username, email,
   bio, createdAt and updatedAt, the three texts being the request's, and no
   password in any form.
   */
  lemma RegisterSuccess(body: Decoded<RegisterUserRequest>, hasher: string -> HashOutcome, store: NewUser -> CreateOutcome)
    ensures var run := HandleRegisterUser(body, hasher, store);
      run.response.status == StatusCreated <==>
        && body.Decoded?
        && ValidateRegisterRequest(body.value).None?
        && hasher(body.value.password).Hashed?
        && store(NewUser(body.value.username, body.value.email, hasher(body.value.password).hash, body.value.bio)).Inserted?
    ensures var run := HandleRegisterUser(body, hasher, store);
      run.response.status == StatusCreated ==>
        var req := body.value;
        var inserted := store(NewUser(req.username, req.email, hasher(req.password).hash, req.bio));
        && run.response.key == "user"
        && run.response.payload.Object?
        && var fields := run.response.payload.fields;
           && fields.Keys == {"id", "username", "email", "bio", "createdAt", "updatedAt"}
           && "password" !in fields
           && fields["username"] == TextField(req.username)
           && fields["email"] == TextField(req.email)
           && fields["bio"] == TextField(req.bio)
           && fields["id"] == IntField(inserted.id)
           && fields["createdAt"] == TimeField(inserted.createdAt)
           && fields["updatedAt"] == TimeField(inserted.updatedAt)
  {
    if body.Decoded? && ValidateRegisterRequest(body.value).None? && hasher(body.value.password).Hashed? {
      var req := body.value;
      var user := NewUser(req.username, req.email, hasher(req.password).hash, req.bio);
      match store(user)
      case InsertFailed(err) =>
      case Inserted(id, c, u) =>
        var fields := UserObject(user, id, c, u);
        assert fields.Keys == {"id", "username", "email", "bio", "createdAt", "updatedAt"};
    }
  }
}

=== FILE: wrappers.dfy ===
/** The optional-value datatype shared by the other modules. */
module Wrappers {

  /** A value that may be missing: a nil pointer, an absent context entry, a nil error. */
  datatype Option<+T> = None | Some(value: T)
}
